=== FILE: README.md ===
# Eklavya local planner — a Dafny model

This project models the helper layer of the Eklavya robot's local planner
(`eklavya_node/src/Modules/Planner/plannerMethods.h`). It covers the parts
that the search builds on:

- the seed catalog loader (`loadSeeds`), modelled over a token list;
- successor generation (`neighborNodes`);
- the two comparators `PoseCompare` and `StateCompare`;
- near-equality (`isEqual`, `targetReached`) and the goal-footprint test (`onTarget`);
- the occupancy-grid operations (`isWalkable`, `addObstacleP`);
- path reconstruction over the parent-link map (`reconstructPath`, both overloads);
- command synthesis (`sendCommand`). Mode 0 is the configured mode. Mode 1's
  table lookup and Mode 2's curvature formula are modelled alongside it.

Everything is written as pure functions over immutable values, plus three
loop methods (`IsWalkable`, `AddObstacleP`, `OnTarget`). The modelling rules:

- Doubles become `real`.
- Every `(int)` conversion is `Geometry.Trunc`, which truncates toward zero.
- The grid is a square `seq<seq<int>>` whose side is MAP_MAX.
- The parent-link map is a `map<Pose, State>`.
- The sines and cosines used to place a seed are a parameter
  `rot(alpha, a, b)`. It stands for the rotated offset
  (a sin alpha + b cos alpha, -a cos alpha + b sin alpha).

Modules: `Types` (records), `Geometry` (truncation, placement), `Ordering`,
`Proximity`, `ObstacleGrid`, `Successors`, `Command`, `Reconstruction`,
`SeedCatalog`, and `Wrappers` (Option/Result).

Two behaviours of the source that are easy to misread:

- `neighborNodes` sets `g_dist` to the seed's own cost, not to the parent's
  cost plus it (line 569).
- The seed id kept by `reconstructPath` is that of the last link walked, which
  is the first step away from the root (lines 473-475).

One point is reproduced as written, not treated as a finding. For the hard
ratio 1.352941, Mode 1's starting table index (before any correction) gives
the left wheel the lower speed, while Mode 0 gives it the higher speed
(`Command.Mode1BaseOpposesMode0`). Mode 0 treats any other ratio above 1.35
as unbanded and sends the zero command.

## Model

| member | source | states |
|---|---|---|
| Geometry.Trunc | eklavya_node/src/Modules/Planner/plannerMethods.h:204-206 | The `(int)` cast truncates toward zero: the result lies within 1 of the value, on the zero side |
| Ordering.PoseCompareConflatesDistinctPoses | eklavya_node/src/Modules/Planner/plannerMethods.h:67-86 | The Cantor-key comparator treats the distinct poses (0,0,-1) and (1,0,-1) as one map key |
| Ordering.CantorKeyInjectiveOnNaturals | eklavya_node/src/Modules/Planner/plannerMethods.h:70-84 | On poses with non-negative integer coordinates, equal Cantor keys imply equal poses |
| Ordering.PoseLessIsStrictTotalOrder | eklavya_node/src/Modules/Planner/plannerMethods.h:67-86 | The lexicographic key order is irreflexive, asymmetric, transitive and total on distinct poses |
| Ordering.PoseLessKeysAreExact | eklavya_node/src/Modules/Planner/plannerMethods.h:67-86 | Under the lexicographic order, two poses share a map entry iff they are equal |
| Ordering.StateCompareIsStrictWeakOrder | eklavya_node/src/Modules/Planner/plannerMethods.h:88-101 | `f = g + h` ordering is a strict weak order and ignores the compiled-out obstacle costs |
| Ordering.QueueTopIsCheapest | eklavya_node/src/Modules/Planner/plannerMethods.h:88-101 | A node that no other node outranks under StateCompare is exactly a node of least `g + h` |
| Proximity.SquaredTestMatchesDistance | eklavya_node/src/Modules/Planner/plannerMethods.h:235-247 | For the Euclidean distance d, the squared tests decide exactly d < 35 and d < 250 |
| Proximity.NearEqualityProperties | eklavya_node/src/Modules/Planner/plannerMethods.h:235-247 | isEqual/targetReached are reflexive and symmetric, ignore headings, and isEqual implies targetReached |
| Proximity.OnTarget | eklavya_node/src/Modules/Planner/plannerMethods.h:579-600 | True iff some seed's probe (sample x paired with destination y) lies within 35 of the goal |
| ObstacleGrid.IsWalkable | eklavya_node/src/Modules/Planner/plannerMethods.h:611-633 | True iff every truncated, placed footprint sample is in [0, MAP_MAX)² and over a free cell |
| ObstacleGrid.GuardAsWrittenAdmitsMapMax | eklavya_node/src/Modules/Planner/plannerMethods.h:639-648 | A square reaching past the edge makes the `<= MAP_MAX` guard admit an index outside the grid |
| ObstacleGrid.GuardsAgreeInsideMap | eklavya_node/src/Modules/Planner/plannerMethods.h:640-643 | When x + r <= MAP_MAX, the written guard and the in-bounds guard agree on every visited index |
| ObstacleGrid.AddObstacleP | eklavya_node/src/Modules/Planner/plannerMethods.h:639-648 | Exactly the in-map cells (x+i, y+j), i and j in [-r, r), become 255; every other cell is unchanged |
| ObstacleGrid.StampIdempotent | eklavya_node/src/Modules/Planner/plannerMethods.h:639-648 | Stamping the same square twice gives the same grid as stamping it once |
| ObstacleGrid.StampNeverClears | eklavya_node/src/Modules/Planner/plannerMethods.h:644 | A non-free cell stays non-free after stamping |
| ObstacleGrid.StampBlocksFootprint | eklavya_node/src/Modules/Planner/plannerMethods.h:611-648 | After stamping, a seed whose footprint crosses the square is not walkable |
| Successors.NeighborNodes | eklavya_node/src/Modules/Planner/plannerMethods.h:551-577 | One child per seed in catalog order: seed id i, cost seeds[i].cost, zero h/obstacle terms, placed destination pose |
| Successors.HeadingUpdateIsExact | eklavya_node/src/Modules/Planner/plannerMethods.h:566 | For integral headings, (int)(dz - (90 - z)) equals z + dz - 90 |
| Successors.NeighborHeading | eklavya_node/src/Modules/Planner/plannerMethods.h:566 | For integral headings, a child's heading is the parent's plus the seed's minus 90, so a seed with heading 90 keeps the heading |
| Successors.NeighborPositionIntegral | eklavya_node/src/Modules/Planner/plannerMethods.h:559-564 | Children lie on integer coordinates |
| Successors.StraightSeedExpansion | eklavya_node/src/Modules/Planner/plannerMethods.h:551-577 | A straight seed (0,100,90) expanded from (0,0,90) gives the child (0,100,90) with the seed's cost |
| Successors.FootprintReachesNeighbor | eklavya_node/src/Modules/Planner/plannerMethods.h:611-623 | A footprint sample on the seed's integral destination is checked at the child's own position |
| Command.Saturate | eklavya_node/src/Modules/Planner/plannerMethods.h:429-432 | A wheel speed is clamped to [-80, 80]: in-range values are kept, speeds beyond become exactly ±80 |
| Command.ToTwistRoundTrip | eklavya_node/src/Modules/Planner/plannerMethods.h:445-452 | The command determines the wheel pair, and its other four components are zero |
| Command.ToTwistInjective | eklavya_node/src/Modules/Planner/plannerMethods.h:445-452 | Distinct wheel pairs give distinct commands |
| Command.LeftShare | eklavya_node/src/Modules/Planner/plannerMethods.h:327-334 | The left share 2·vavg·k/(1+k) lies in [0, 2·vavg]; it is below vavg when k < 1 and vavg > 0, and at least vavg when k >= 1 |
| Command.Sharpen | eklavya_node/src/Modules/Planner/plannerMethods.h:326-333 | The aggression factor keeps the ratio positive and on the same side of 1 |
| Command.TurnWheels | eklavya_node/src/Modules/Planner/plannerMethods.h:323-336 | A turn band's wheels sum to 2·vavg and lie in [0, 2·vavg]; the left is at least as fast when k >= 1 and strictly slower when k < 1 and vavg > 0 |
| Command.TurnBandValues | eklavya_node/src/Modules/Planner/plannerMethods.h:323-336 | The four reserved ratios give (55,45), (44,56), (26,14) and (13,27) |
| Command.SendCommand | eklavya_node/src/Modules/Planner/plannerMethods.h:305-457 | Zero request gives the zero command; outputs are bounded; a straight forward seed drives at 0.8 with no turn |
| Command.ReverseIsPassThrough | eklavya_node/src/Modules/Planner/plannerMethods.h:411-416 | A reverse request carries the truncated requested speeds, clamped only when beyond ±80 |
| Command.Mode0Bands | eklavya_node/src/Modules/Planner/plannerMethods.h:316-339 | Straight gives (80,80); a soft or hard seed gives exactly TurnWheels' pair (speed 0.5 or 0.2, turning as k says); any other unequal seed gives the zero command |
| Command.SpeedTables | eklavya_node/src/Modules/Planner/plannerMethods.h:370-371 | Each pair of Mode 1 speeds sums to 80, the tables mirror each other, and the left table increases |
| Command.Mode1BaseIndex | eklavya_node/src/Modules/Planner/plannerMethods.h:356-368 | The ratio bands select a starting index between 2 and 6 |
| Command.ClampIndex | eklavya_node/src/Modules/Planner/plannerMethods.h:381-386 | The corrected index is clamped to [0, 8], unchanged when already in range |
| Command.FirstCallYawRate | eklavya_node/src/Modules/Planner/plannerMethods.h:344-353 | From the initial yaw history (0.5 after 1), the first call's error carries a yaw rate of -0.5/0.37 that never happened |
| Command.Mode1Index | eklavya_node/src/Modules/Planner/plannerMethods.h:379-386 | The band's index moved by the truncated PID correction always lands in the table, [0, 8] |
| Command.Mode1Step | eklavya_node/src/Modules/Planner/plannerMethods.h:341-399 | The pair is the table entry at the band's index moved by the correction and clamped; it sums to 80 within [23, 57]; errorSum grows by this call's error; the yaw history shifts by one; previousError never changes |
| Command.CorrectionMonotone | eklavya_node/src/Modules/Planner/plannerMethods.h:379-389 | A larger correction never slows the left wheel nor speeds up the right one |
| Command.SendCommandMode1 | eklavya_node/src/Modules/Planner/plannerMethods.h:313-416 | A forward request issues exactly ToTwist of Mode1Step's pair (speed 0.4, turn within ±34/55, other components zero) and advances the controller; zero and reverse requests give Mode 0's command and leave the controller alone |
| Command.Mode1BaseOpposesMode0 | eklavya_node/src/Modules/Planner/plannerMethods.h:356-371 | At the hard ratio k = 1.352941 and without correction, Mode 1 puts the left wheel slower, while Mode 0 puts it faster |
| Command.CurvatureShape | eklavya_node/src/Modules/Planner/plannerMethods.h:404 | 5(k-1)/(k+1) is positive for k > 1, zero at 1, negative on (-1, 1), in [-5, 5) for k >= 0, above 5 for k < -1 |
| Command.Mode2Curvature | eklavya_node/src/Modules/Planner/plannerMethods.h:404 | The target curvature's sign and range follow the ratio as above |
| Command.SendCommandMode2 | eklavya_node/src/Modules/Planner/plannerMethods.h:401-409 | A forward seed publishes the curvature 5(k-1)/(k+1) and issues the zero command; any other seed gets Mode 0's command and leaves the curvature unchanged |
| Reconstruction.ParentStepsFewer | eklavya_node/src/Modules/Planner/plannerMethods.h:468-476 | Each link walked brings the walk one step closer to its end |
| Reconstruction.SelfLinkNeverTerminates | eklavya_node/src/Modules/Planner/plannerMethods.h:468-476 | A pose linked to itself is never left, so the source's loop does not end |
| Reconstruction.WalkBack | eklavya_node/src/Modules/Planner/plannerMethods.h:464-476 | Gives the parent chain ending at the current pose, excluding the root, and the seed id of the first step from the root |
| Reconstruction.ParentChainUnique | eklavya_node/src/Modules/Planner/plannerMethods.h:466-476 | Any path meeting the parent-chain conditions is the one the walk produces |
| Reconstruction.ReconstructPath | eklavya_node/src/Modules/Planner/plannerMethods.h:459-549 | Rebuilds the parent chain; the kept seed id is the first step's, -1 when there is no link; no command is issued iff it is -1, otherwise that seed's command is sent |
| Reconstruction.NoCommandIffNoLink | eklavya_node/src/Modules/Planner/plannerMethods.h:513-518 | With non-negative stored seed ids, no command is issued exactly when the state has no link |
| Reconstruction.FirstOverloadReturns | eklavya_node/src/Modules/Planner/plannerMethods.h:459-522 | The first overload returns the first step's command, or the default zero command when seed_id is -1 |
| SeedCatalog.ScanCount | eklavya_node/src/Modules/Planner/plannerMethods.h:208-214 | A count field is accepted iff the next token is an integral number, and that number is returned |
| SeedCatalog.NumsAheadIffFullScan | eklavya_node/src/Modules/Planner/plannerMethods.h:189-194 | A field group is read iff `fscanf` would match every field |
| SeedCatalog.DecodePoint | eklavya_node/src/Modules/Planner/plannerMethods.h:216-224 | A point is read iff two numbers follow |
| SeedCatalog.DecodePoints | eklavya_node/src/Modules/Planner/plannerMethods.h:216-226 | Reading n points succeeds exactly when the next 2·max(n, 0) tokens are all numbers; it then adds max(n, 0) points and consumes exactly those tokens |
| SeedCatalog.DecodeSeed | eklavya_node/src/Modules/Planner/plannerMethods.h:186-227 | A seed is read exactly when all five fields of its line, its integral point count and every point field scan (and k is not -1); it keeps the line's k and cost, truncates x, y and z, and holds max(count, 0) points |
| SeedCatalog.DecodeSeedTruncates | eklavya_node/src/Modules/Planner/plannerMethods.h:204-206 | A fractional destination (3.7, -2.5, 90) is read and truncated toward zero to (3, -2, 90), not refused |
| SeedCatalog.DecodeSeeds | eklavya_node/src/Modules/Planner/plannerMethods.h:185-228 | Reading n seeds adds exactly max(n, 0) seeds |
| SeedCatalog.DecodeCatalog | eklavya_node/src/Modules/Planner/plannerMethods.h:173-229 | A loaded catalog has exactly max(count, 0) seeds |
| SeedCatalog.CatalogRoundTrip | eklavya_node/src/Modules/Planner/plannerMethods.h:173-229 | Loading the file written for a well-formed catalog gives back that catalog, whatever follows it |
| SeedCatalog.CatalogReversesFileOrder | eklavya_node/src/Modules/Planner/plannerMethods.h:225-227 | Seeds are prepended, so the file's first seed ends up last in the catalog |
| SeedCatalog.DecodedSeedWellFormed | eklavya_node/src/Modules/Planner/plannerMethods.h:196-206 | A loaded seed has an integral destination and vl = 70k/(1+k), vr = 70/(1+k) |
| SeedCatalog.DecodedSeedsWellFormed | eklavya_node/src/Modules/Planner/plannerMethods.h:185-228 | Every seed of a loaded catalog is well-formed |
| SeedCatalog.ShortCatalogsPassAsWritten | eklavya_node/src/Modules/Planner/plannerMethods.h:178-214 | A catalog ending after its count (status -1), or one ending after two numbers of a seed line (statuses 2 and -1), passes every `== 0` check but is rejected here; a seed line broken by text is caught by the point-count scan (status 0) |

## Left out

- `controllerThread`, `initBot`, `startThread` (lines 132-171, 272-303) are left out. They are about threads, mutexes, sleeps and a loop that runs for the life of the process.
- Serial output through `Tserial` (lines 152-165, 418-427) is left out. It is hardware I/O, and `SIMCTL` compiles it out.
- Diagnostics are left out: `plotPoint`, `mouseHandler`, `print`, `cv::imshow`, `cvWaitKey`, the circle drawn by `addObstacleP`, and the `ROS_INFO`/`printf` logging.
- `Planner::finBot()` is defined outside this file. Reconstruction models its call as "no command issued".
- The path mutex around the path rebuild is left out; the rebuilt path is the function's result.
- `loadSeeds` reads a pre-tokenised list: a number, or `Junk` for text that does not scan. Opening and reading the file are left out.
- The `FLEX` branch of `reconstructPath` (lines 485-511) is left out. Its flag is off and it is floating-point curve fitting.
- The `DistTransform` terms of `StateCompare` (lines 94-97) are left out because they are compiled out.
- `StateCompareDT` (lines 103-113) is compiled, but nothing in this file uses it, so it is left out.
- Seed files are read as the `SIM_SEEDS` layout: k, x, y, z, cost, with VMAX = 70. The other layout (lines 199-200) reads vl and vr directly, never checks its scan, and is left out.
- `PID_MODE` is a build constant. Each mode is its own function: `SendCommand` for mode 0, `SendCommandMode1`, and `SendCommandMode2`.
- The helpers `distance` (lines 231-233) and `closePlanner` (lines 635-637) are left out. Nothing in the file calls `distance`, and `closePlanner` is empty.
- The search driver with its open and closed sets, `MAP_MAX`, `local_map` and `path` are declared in `planner.h`. That file is not part of this model.
- The `depth` field of `state` is left out. Nothing here reads it, and `neighborNodes` leaves it unset.
- Trigonometry is the `rot` parameter. The product `0.55 * 100` is taken as exactly 55, and float rounding is not modelled.
- `float left_velocity = s.vl` narrows a double to float in the source. The model keeps the real value.
- Command.SendCommandMode1: the yaw is an input instead of a locked read of the shared pose, and the static variables are an explicit `PidState`.
- Command.Mode2Curvature: requires k != -1. There the source divides by zero and stores an infinite curvature.
- Command.SendCommandMode2: requires k != -1 for forward seeds, for the same reason. The mutex around the shared curvature is left out.
- SeedCatalog.DecodeSeed: rejects k = -1 with `RatioMinusOne`. For that ratio the source computes infinite speeds, which later casts to int turn into undefined values.
- SeedCatalog.ScanCount: rejects a fractional count. `%d` would read its integer part and leave the fraction for the next field.
- Reconstruction.ReconstructPath: requires the walk to end. On a cyclic `came_from` the source loops forever. It also requires the kept seed id to be -1 or a catalog index, because the source indexes `seeds` without a check. Lookups use exact pose equality, not the Cantor-key `find` of the source's map, so poses that the source's key conflates stay distinct (see Findings).

## Findings

| source | as written | input that shows it | evidently intended | confidence | as-written member | corrected member |
|---|---|---|---|---|---|---|
| eklavya_node/src/Modules/Planner/plannerMethods.h:641-643 | `x + i <= MAP_MAX` and `y + j <= MAP_MAX` guard the stamp | `addObstacleP(img, MAP_MAX, 0, 1)`: i = 0 passes and row MAP_MAX is written, one past the grid | `< MAP_MAX`, the bound `isWalkable` uses | not executed; high | ObstacleGrid.GuardAsWrittenAdmitsMapMax | ObstacleGrid.AddObstacleP |
| eklavya_node/src/Modules/Planner/plannerMethods.h:74-84 | map keys ordered by a Cantor pairing of x, y, z | poses (0, 0, -1) and (1, 0, -1) both have key -1, so `came_from` holds one entry for both | a strict total order on poses (distinct poses, distinct keys) | not executed; medium | Ordering.PoseCompareConflatesDistinctPoses | Ordering.PoseLessIsStrictTotalOrder |
| eklavya_node/src/Modules/Planner/plannerMethods.h:178-221 | a scan is fatal only when `fscanf` returns 0 | the file `1` (the seed-line scan returns -1 at end of file), or the file `1 1.258574 5` (the seed-line scan returns 2, the point-count scan -1): a seed with unset fields is inserted | fatal unless every field was matched | not executed; high | SeedCatalog.ShortCatalogsPassAsWritten | SeedCatalog.DecodeSeed |

In the model, `came_from` is keyed by exact pose equality, which is the
corrected order's behaviour. Seed loading uses the corrected scan rule.
Stamping uses the in-bounds guard. `ObstacleGrid.GuardsAgreeInsideMap` shows
that the written guard matches the corrected one whenever the square stays
below MAP_MAX.

=== FILE: catalog.dfy ===
/**
 * Seed catalog decoding (`loadSeeds`) over a pre-tokenised input. The layout
 * is: seed count; then per seed `k x y z cost`, a point count and that many
 * `x y` points. Destinations are truncated to integers, the wheel speeds are
 * derived from k, and both seeds and points are prepended as they are read,
 * so the catalog lists them in the reverse of file order.
 */
module SeedCatalog {
  import opened Types
  import opened Wrappers
  import opened Geometry

  /** A whitespace-separated field: a number, or text that does not scan as one. */
  datatype Token = Num(value: real) | Junk

  datatype DecodeError =
    | BadField       // a field did not scan: fatal, the planner exits
    | RatioMinusOne  // k = -1 makes the derived speeds divide by zero

  /** VMAX: the wheel speed that the two derived speeds share out. */
  const VMax: real := 70.0

  // ---------------------------------------------------------------- scanning

  /** How many of the first n tokens scan as numbers, stopping at the first that does not. */
  function LeadingNums(ts: seq<Token>, n: nat): (c: nat)
    ensures c <= n && c <= |ts|
  {
    if n == 0 || |ts| == 0 || ts[0].Junk? then 0 else 1 + LeadingNums(ts[1..], n - 1)
  }

  /** `fscanf`'s return value for n numeric fields: -1 at end of input, else the fields matched. */
  function ScanStatus(ts: seq<Token>, n: nat): int {
    if |ts| == 0 then -1 else LeadingNums(ts, n)
  }

  /** The next n tokens are all numbers. */
  predicate NumsAhead(ts: seq<Token>, n: nat) {
    n <= |ts| && forall i | 0 <= i < n :: ts[i].Num?
  }

  /** A `for` loop's trip count: a negative bound runs no iteration. */
  function Trips(n: int): nat {
    if n < 0 then 0 else n
  }

  /** 2m numbers lie ahead exactly when two do and 2(m - 1) follow them. */
  lemma NumsAheadStep(ts: seq<Token>, m: nat)
    requires m > 0
    ensures NumsAhead(ts, 2 * m) <==> NumsAhead(ts, 2) && NumsAhead(ts[2..], 2 * (m - 1))
  {
    if NumsAhead(ts, 2) && NumsAhead(ts[2..], 2 * (m - 1)) {
      assert forall i | 2 <= i < 2 * m :: ts[i] == ts[2..][i - 2];
    }
  }

  /**
   * Reading n numeric fields succeeds exactly when `fscanf` matches all of
   * them, that is when its return value is n.
   */
  lemma NumsAheadIffFullScan(ts: seq<Token>, n: nat)
    requires 0 < n
    ensures NumsAhead(ts, n) <==> ScanStatus(ts, n) == n
  {
    AllNumsScanned(ts, n);
  }

  lemma {:induction false} AllNumsScanned(ts: seq<Token>, n: nat)
    ensures LeadingNums(ts, n) == n <==> NumsAhead(ts, n)
  {
    if n > 0 && |ts| > 0 && ts[0].Num? {
      AllNumsScanned(ts[1..], n - 1);
      assert forall i | 1 <= i < n && n <= |ts| :: ts[i] == ts[1..][i - 1];
    }
  }

  /** Reads a `%d` count: the token must be an integral number. */
  function ScanCount(ts: seq<Token>): (r: Result<int, DecodeError>)
    ensures r.Success? <==> |ts| > 0 && ts[0].Num? && IsIntegral(ts[0].value)
    ensures r.Success? ==> ts[0] == Num(r.value as real)
  {
    if |ts| > 0 && ts[0].Num? && IsIntegral(ts[0].value) then Success(Trunc(ts[0].value))
    else Failure(BadField)
  }

  // ---------------------------------------------------------------- decoding

  /** A seed as loaded: destination truncated, speeds derived from the ratio. */
  function MakeSeed(k: real, x: real, y: real, z: real, cost: real, pts: seq<SeedPoint>): Seed
    requires k != -1.0
  {
    Seed(Pose(Trunc(x) as real, Trunc(y) as real, Trunc(z) as real), cost, k,
         VMax * k / (1.0 + k), VMax / (1.0 + k), pts)
  }

  /** Reads one `x y` point. */
  function DecodePoint(ts: seq<Token>): (r: Result<(SeedPoint, seq<Token>), DecodeError>)
    ensures r.Success? <==> NumsAhead(ts, 2)
  {
    if NumsAhead(ts, 2) then Success((SeedPoint(ts[0].value, ts[1].value), ts[2..]))
    else Failure(BadField)
  }

  /** Reads `remaining` points, prepending each to `acc`; returns them with the unread input. */
  function DecodePoints(ts: seq<Token>, remaining: int, acc: seq<SeedPoint>)
    : (r: Result<(seq<SeedPoint>, seq<Token>), DecodeError>)
    ensures r.Success? <==> NumsAhead(ts, 2 * Trips(remaining))
    ensures r.Success? ==> |r.value.0| == |acc| + Trips(remaining)
    ensures r.Success? ==> r.value.1 == ts[2 * Trips(remaining)..]
    decreases Trips(remaining)
  {
    if remaining <= 0 then Success((acc, ts))
    else
      NumsAheadStep(ts, remaining);
      var pr :- DecodePoint(ts);
      DecodePoints(pr.1, remaining - 1, [pr.0] + acc)
  }

  /** Reads one seed: its `k x y z cost` line, its point count and its points. */
  function DecodeSeed(ts: seq<Token>): (r: Result<(Seed, seq<Token>), DecodeError>)
    ensures r.Success? ==> NumsAhead(ts, 5) && r.value.0.k == ts[0].value && r.value.0.cost == ts[4].value
    ensures r.Success? ==>
              r.value.0.dest == Pose(Trunc(ts[1].value) as real, Trunc(ts[2].value) as real, Trunc(ts[3].value) as real)
    ensures r.Success? ==>
              && |ts| > 5 && ScanCount(ts[5..]).Success?
              && |r.value.0.points| == Trips(ScanCount(ts[5..]).value)
    ensures r.Success? <==>
              && NumsAhead(ts, 5) && ts[0].value != -1.0
              && |ts| > 5 && ScanCount(ts[5..]).Success?
              && NumsAhead(ts[6..], 2 * Trips(ScanCount(ts[5..]).value))
  {
    if !NumsAhead(ts, 5) then Failure(BadField)
    else if ts[0].value == -1.0 then Failure(RatioMinusOne)
    else
      var np :- ScanCount(ts[5..]);
      var pr :- DecodePoints(ts[6..], np, []);
      Success((MakeSeed(ts[0].value, ts[1].value, ts[2].value, ts[3].value, ts[4].value, pr.0), pr.1))
  }

  /** A fractional destination is read and truncated toward zero, not refused. */
  lemma DecodeSeedTruncates()
    ensures var r := DecodeSeed([Num(1.0), Num(3.7), Num(-2.5), Num(90.0), Num(5.0), Num(0.0)]);
            && r.Success?
            && r.value.0.dest == Pose(3.0, -2.0, 90.0)
            && r.value.0.points == [] && r.value.1 == []
  {
    var ts := [Num(1.0), Num(3.7), Num(-2.5), Num(90.0), Num(5.0), Num(0.0)];
    TruncOfInt(0);
    assert ScanCount(ts[5..]) == Success(0);
    assert Trunc(3.7) == 3 && Trunc(-2.5) == -2 && Trunc(90.0) == 90;
  }

  /** Reads `remaining` seeds, prepending each to `acc`; returns them with the unread input. */
  function DecodeSeeds(ts: seq<Token>, remaining: int, acc: seq<Seed>)
    : (r: Result<(seq<Seed>, seq<Token>), DecodeError>)
    ensures r.Success? ==> |r.value.0| == |acc| + Trips(remaining)
    decreases Trips(remaining)
  {
    if remaining <= 0 then Success((acc, ts))
    else
      var sr :- DecodeSeed(ts);
      DecodeSeeds(sr.1, remaining - 1, [sr.0] + acc)
  }

  /**
   * `loadSeeds`: the catalog in memory, or the fatal error that stops the
   * planner. Input after the last seed is ignored; a count of zero or less
   * gives an empty catalog.
   */
  function DecodeCatalog(ts: seq<Token>): (r: Result<seq<Seed>, DecodeError>)
    ensures r.Success? ==> |ts| > 0 && ts[0].Num? && |r.value| == (if ts[0].value < 0.0 then 0 else Trunc(ts[0].value))
  {
    var n :- ScanCount(ts);
    var sr :- DecodeSeeds(ts[1..], n, []);
    Success(sr.0)
  }

  // ---------------------------------------------------------------- encoding

  /** A catalog entry that loading can produce: integral destination, speeds derived from k. */
  predicate WellFormedSeed(s: Seed) {
    && s.k != -1.0
    && IsIntegral(s.dest.x) && IsIntegral(s.dest.y) && IsIntegral(s.dest.z)
    && s.vl == VMax * s.k / (1.0 + s.k)
    && s.vr == VMax / (1.0 + s.k)
  }

  function PointTokens(p: SeedPoint): seq<Token> {
    [Num(p.x), Num(p.y)]
  }

  /** The points in file order: the catalog's last point is written first. */
  function EncodePoints(pts: seq<SeedPoint>): (ts: seq<Token>)
    ensures |ts| == 2 * |pts|
  {
    if |pts| == 0 then []
    else PointTokens(pts[|pts| - 1]) + EncodePoints(pts[..|pts| - 1])
  }

  function SeedTokens(s: Seed): seq<Token> {
    [Num(s.k), Num(s.dest.x), Num(s.dest.y), Num(s.dest.z), Num(s.cost), Num(|s.points| as real)]
      + EncodePoints(s.points)
  }

  /** The seeds in file order: the catalog's last seed is written first. */
  function EncodeSeeds(cat: seq<Seed>): seq<Token> {
    if |cat| == 0 then []
    else SeedTokens(cat[|cat| - 1]) + EncodeSeeds(cat[..|cat| - 1])
  }

  /** The catalog file for a catalog. */
  function EncodeCatalog(cat: seq<Seed>): seq<Token> {
    [Num(|cat| as real)] + EncodeSeeds(cat)
  }

  // ---------------------------------------------------------------- round trip

  lemma SplitLast<T>(xs: seq<T>, acc: seq<T>)
    requires |xs| > 0
    ensures xs[..|xs| - 1] + ([xs[|xs| - 1]] + acc) == xs + acc
  {
    assert xs[..|xs| - 1] + [xs[|xs| - 1]] == xs;
  }

  lemma {:induction false} DecodeEncodedPoints(pts: seq<SeedPoint>, rest: seq<Token>, acc: seq<SeedPoint>)
    ensures DecodePoints(EncodePoints(pts) + rest, |pts|, acc) == Success((pts + acc, rest))
    decreases |pts|
  {
    if |pts| == 0 {
      assert EncodePoints(pts) + rest == rest;
      assert pts + acc == acc;
    } else {
      var n := |pts| - 1;
      var ts := EncodePoints(pts) + rest;
      var tail := EncodePoints(pts[..n]) + rest;
      assert ts == PointTokens(pts[n]) + tail;
      assert DecodePoint(ts) == Success((pts[n], tail));
      assert DecodePoints(ts, |pts|, acc) == DecodePoints(tail, |pts[..n]|, [pts[n]] + acc);
      DecodeEncodedPoints(pts[..n], rest, [pts[n]] + acc);
      SplitLast(pts, acc);
    }
  }

  lemma DecodeSeedUnfold(ts: seq<Token>, n: int, pts: seq<SeedPoint>, rest: seq<Token>)
    requires NumsAhead(ts, 5) && ts[0].value != -1.0 && |ts| > 5
    requires ScanCount(ts[5..]) == Success(n)
    requires DecodePoints(ts[6..], n, []) == Success((pts, rest))
    ensures DecodeSeed(ts)
            == Success((MakeSeed(ts[0].value, ts[1].value, ts[2].value, ts[3].value, ts[4].value, pts), rest))
  {
  }

  lemma DecodeEncodedSeed(s: Seed, rest: seq<Token>)
    requires WellFormedSeed(s)
    ensures DecodeSeed(SeedTokens(s) + rest) == Success((s, rest))
  {
    var ts := SeedTokens(s) + rest;
    var tail := EncodePoints(s.points) + rest;
    var header := [Num(s.k), Num(s.dest.x), Num(s.dest.y), Num(s.dest.z), Num(s.cost)];
    assert ts == header + ([Num(|s.points| as real)] + tail);
    assert NumsAhead(ts, 5);
    assert ts[5..] == [Num(|s.points| as real)] + tail;
    TruncOfInt(|s.points|);
    assert ScanCount(ts[5..]) == Success(|s.points|);
    assert ts[6..] == tail;
    DecodeEncodedPoints(s.points, rest, []);
    assert s.points + [] == s.points;
    DecodeSeedUnfold(ts, |s.points|, s.points, rest);
    assert MakeSeed(s.k, s.dest.x, s.dest.y, s.dest.z, s.cost, s.points) == s;
  }

  lemma EncodeSeedsLast(cat: seq<Seed>, rest: seq<Token>)
    requires |cat| > 0
    ensures EncodeSeeds(cat) + rest == SeedTokens(cat[|cat| - 1]) + (EncodeSeeds(cat[..|cat| - 1]) + rest)
  {
  }

  lemma DecodeSeedsStep(ts: seq<Token>, remaining: int, acc: seq<Seed>)
    requires remaining > 0 && DecodeSeed(ts).Success?
    ensures DecodeSeeds(ts, remaining, acc)
            == DecodeSeeds(DecodeSeed(ts).value.1, remaining - 1, [DecodeSeed(ts).value.0] + acc)
  {
  }

  lemma {:induction false} DecodeEncodedSeeds(cat: seq<Seed>, rest: seq<Token>, acc: seq<Seed>)
    requires forall i | 0 <= i < |cat| :: WellFormedSeed(cat[i])
    ensures DecodeSeeds(EncodeSeeds(cat) + rest, |cat|, acc) == Success((cat + acc, rest))
    decreases |cat|
  {
    if |cat| == 0 {
      assert EncodeSeeds(cat) + rest == rest;
      assert cat + acc == acc;
    } else {
      var n := |cat| - 1;
      var tail := EncodeSeeds(cat[..n]) + rest;
      EncodeSeedsLast(cat, rest);
      DecodeEncodedSeed(cat[n], tail);
      DecodeSeedsStep(SeedTokens(cat[n]) + tail, |cat|, acc);
      assert forall i | 0 <= i < n :: cat[..n][i] == cat[i];
      DecodeEncodedSeeds(cat[..n], rest, [cat[n]] + acc);
      SplitLast(cat, acc);
    }
  }

  /**
   * Loading the file written for a well-formed catalog gives back that
   * catalog, whatever follows the last seed: count, order, ratios, speeds,
   * costs and footprints all survive.
   */
  lemma CatalogRoundTrip(cat: seq<Seed>, rest: seq<Token>)
    requires forall i | 0 <= i < |cat| :: WellFormedSeed(cat[i])
    ensures DecodeCatalog(EncodeCatalog(cat) + rest) == Success(cat)
  {
    var ts := EncodeCatalog(cat) + rest;
    TruncOfInt(|cat|);
    assert ScanCount(ts) == Success(|cat|);
    assert ts[1..] == EncodeSeeds(cat) + rest;
    DecodeEncodedSeeds(cat, rest, []);
    assert cat + [] == cat;
  }

  /** The first seed of the file becomes the last of the catalog. */
  lemma CatalogReversesFileOrder(first: Seed, second: Seed)
    requires WellFormedSeed(first) && WellFormedSeed(second)
    ensures DecodeCatalog([Num(2.0)] + SeedTokens(first) + SeedTokens(second)) == Success([second, first])
  {
    var cat := [second, first];
    assert EncodeSeeds([second]) == SeedTokens(second);
    assert EncodeSeeds(cat) == SeedTokens(first) + SeedTokens(second);
    assert EncodeCatalog(cat) + [] == [Num(2.0)] + SeedTokens(first) + SeedTokens(second);
    CatalogRoundTrip(cat, []);
  }

  /** Every seed loading produces is well-formed. */
  lemma DecodedSeedWellFormed(ts: seq<Token>)
    requires DecodeSeed(ts).Success?
    ensures WellFormedSeed(DecodeSeed(ts).value.0)
  {
    TruncOfInt(Trunc(ts[1].value));
    TruncOfInt(Trunc(ts[2].value));
    TruncOfInt(Trunc(ts[3].value));
  }

  lemma {:induction false} DecodedSeedsWellFormed(ts: seq<Token>, remaining: int, acc: seq<Seed>)
    requires forall i | 0 <= i < |acc| :: WellFormedSeed(acc[i])
    requires DecodeSeeds(ts, remaining, acc).Success?
    ensures var cat := DecodeSeeds(ts, remaining, acc).value.0;
            forall i | 0 <= i < |cat| :: WellFormedSeed(cat[i])
    decreases Trips(remaining)
  {
    if remaining > 0 {
      var sr := DecodeSeed(ts).value;
      DecodeSeedsStep(ts, remaining, acc);
      DecodedSeedWellFormed(ts);
      DecodedSeedsWellFormed(sr.1, remaining - 1, [sr.0] + acc);
    }
  }

  // ---------------------------------------------------------------- scan status check

  /** The source's test of a scan: fatal only when `fscanf` returned 0. */
  predicate FatalAsWritten(status: int) {
    status == 0
  }

  /**
   * As written, input cut short by end of file passes every check: a catalog
   * that ends right after its count (the seed-line scan returns -1), or one
   * whose seed line stops after two numbers (the line scan returns 2 and the
   * point-count scan returns -1), leaves the seed's fields unset; the decoder
   * rejects both. A seed line broken by text instead is
   * caught one scan later: the `%d` point count stops on the same text and
   * returns 0.
   */
  lemma ShortCatalogsPassAsWritten()
    ensures var ts := [Num(1.0)];
            && ScanStatus(ts[1..], 5) == -1 && !FatalAsWritten(ScanStatus(ts[1..], 5))
            && DecodeCatalog(ts) == Failure(BadField)
    ensures var ts := [Num(1.0), Num(1.258574), Num(5.0)];
            && ScanStatus(ts[1..], 5) == 2 && !FatalAsWritten(ScanStatus(ts[1..], 5))
            && ScanStatus(ts[3..], 1) == -1 && !FatalAsWritten(ScanStatus(ts[3..], 1))
            && DecodeCatalog(ts) == Failure(BadField)
    ensures var ts := [Num(1.0), Num(1.258574), Junk, Junk, Junk, Junk, Num(0.0)];
            && ScanStatus(ts[1..], 5) == 1 && !FatalAsWritten(ScanStatus(ts[1..], 5))
            && FatalAsWritten(ScanStatus(ts[2..], 1))
  {
    var ts1 := [Num(1.0)];
    TruncOfInt(1);
    assert ScanCount(ts1) == Success(1);
    var ts2 := [Num(1.0), Num(1.258574), Num(5.0)];
    assert ScanCount(ts2) == Success(1);
    assert ts2[1..][1..][1..] == [];
    assert LeadingNums(ts2[1..], 5) == 2;
    assert !NumsAhead(ts2[1..], 5);
    var ts3 := [Num(1.0), Num(1.258574), Junk, Junk, Junk, Junk, Num(0.0)];
    assert ts3[1..][1..][0].Junk?;
    assert LeadingNums(ts3[1..][1..], 4) == 0;
    assert ts3[2..][0].Junk?;
  }
}

=== FILE: command.dfy ===
/**
 * Command synthesis (`sendCommand`): a seed's requested wheel speeds become an
 * integer wheel pair, are clamped to [-80, 80] and are converted to a linear
 * and angular velocity. The active control mode is Mode 0 (`SendCommand`);
 * Mode 1 and Mode 2 are modelled alongside with their state made explicit.
 */
module Command {
  import opened Types
  import opened Geometry

  /** Wheel-speed bound of the actuators. */
  const WheelLimit: int := 80
  /** `scale` and wheel track `w` of the velocity conversion. */
  const Scale: real := 100.0
  const Track: real := 0.55

  datatype Wheels = Wheels(left: int, right: int)

  // ---------------------------------------------------------------- shared steps

  /** Both requested speeds are zero: the command returns at once. */
  predicate IsZeroRequest(s: Seed) {
    s.vl == 0.0 && s.vr == 0.0
  }

  /** Both requested speeds are non-negative and not both zero: the control mode decides. */
  predicate IsForward(s: Seed) {
    !IsZeroRequest(s) && s.vl >= 0.0 && s.vr >= 0.0
  }

  /** A reverse request: one speed is negative; speeds pass through truncated. */
  predicate IsReverse(s: Seed) {
    s.vl < 0.0 || s.vr < 0.0
  }

  function ReverseWheels(s: Seed): Wheels {
    Wheels(Trunc(s.vl), Trunc(s.vr))
  }

  /** Saturation of one wheel speed to [-80, 80]. */
  function Saturate(v: int): (r: int)
    ensures -WheelLimit <= r <= WheelLimit
    ensures -WheelLimit <= v <= WheelLimit ==> r == v
    ensures v > WheelLimit ==> r == WheelLimit
    ensures v < -WheelLimit ==> r == -WheelLimit
  {
    var capped := if v > WheelLimit then WheelLimit else v;
    if capped < -WheelLimit then -WheelLimit else capped
  }

  function SaturateBoth(w: Wheels): Wheels {
    Wheels(Saturate(w.left), Saturate(w.right))
  }

  /**
   * Conversion of a wheel pair to a velocity command:
   * linear x = (l + r) / (2 scale), angular z = (l - r) / (w scale).
   */
  function ToTwist(w: Wheels): Twist {
    Twist(Vector3((w.left + w.right) as real / (2.0 * Scale), 0.0, 0.0),
          Vector3(0.0, 0.0, (w.left - w.right) as real / (Track * Scale)))
  }

  /** The wheel speeds a command stands for: the inverse of `ToTwist`. */
  function WheelsOf(t: Twist): (real, real) {
    (Scale * t.linear.x + Track * Scale / 2.0 * t.angular.z,
     Scale * t.linear.x - Track * Scale / 2.0 * t.angular.z)
  }

  lemma ToTwistRoundTrip(w: Wheels)
    ensures WheelsOf(ToTwist(w)) == (w.left as real, w.right as real)
    ensures ToTwist(w).linear.y == 0.0 && ToTwist(w).linear.z == 0.0
    ensures ToTwist(w).angular.x == 0.0 && ToTwist(w).angular.y == 0.0
  {
  }

  /** Distinct wheel pairs give distinct commands. */
  lemma ToTwistInjective(w1: Wheels, w2: Wheels)
    requires ToTwist(w1) == ToTwist(w2)
    ensures w1 == w2
  {
    ToTwistRoundTrip(w1);
    ToTwistRoundTrip(w2);
  }

  // ---------------------------------------------------------------- Mode 0

  /** Mode 0's classification of a forward seed. */
  datatype Band = Straight | SoftTurn | HardTurn | Unbanded

  /** The ratios the catalog reserves for soft and hard turns, matched exactly. */
  predicate IsSoftRatio(k: real) {
    k == 1.258574 || k == 0.794550
  }

  predicate IsHardRatio(k: real) {
    k == 1.352941 || k == 0.739130
  }

  function Classify(s: Seed): Band {
    if s.vl == s.vr then Straight
    else if IsSoftRatio(s.k) then SoftTurn
    else if IsHardRatio(s.k) then HardTurn
    else Unbanded
  }

  /**
   * The left share 2 vavg k / (1 + k) of a positive ratio lies in [0, 2 vavg]
   * and is below vavg exactly when k is below 1.
   */
  lemma LeftShare(vavg: nat, k: real)
    requires 0.0 < k
    ensures var v := 2.0 * vavg as real * k / (1.0 + k);
            && 0.0 <= v <= 2.0 * vavg as real
            && (k < 1.0 ==> v < vavg as real || vavg == 0)
            && (1.0 <= k ==> vavg as real <= v)
  {
    var a := vavg as real;
    var v := 2.0 * a * k / (1.0 + k);
    var q := 1.0 / (1.0 + k);
    assert 0.0 < q < 1.0;
    assert v == 2.0 * a * (1.0 - q);
    var e := (k - 1.0) * q;
    assert 1.0 - 2.0 * q == e;
    assert v - a == a * e;
    if k < 1.0 {
      assert e < 0.0;
      if 0.0 < a {
        assert a * e < 0.0;
      }
    } else {
      assert e >= 0.0;
      assert a * e >= 0.0;
    }
  }

  /** The ratio after the band's aggression: sharpened away from 1. */
  function Sharpen(aggression: real, k: real): (k': real)
    requires 0.0 < k && 1.0 <= aggression
    ensures 0.0 < k'
    ensures k < 1.0 <==> k' < 1.0
  {
    if k < 1.0 then k / aggression else k * aggression
  }

  /**
   * The wheel pair of a turn band with average speed `vavg`: the left speed is
   * (int)(2 vavg k / (1 + k)) for the sharpened ratio and the right one makes
   * up 2 vavg. The faster wheel is the one the ratio favours.
   */
  function TurnWheels(vavg: nat, aggression: real, k: real): (w: Wheels)
    requires 0.0 < k && 1.0 <= aggression
    ensures w.left + w.right == 2 * vavg
    ensures 0 <= w.left <= 2 * vavg && 0 <= w.right <= 2 * vavg
    ensures 0 < vavg && k < 1.0 ==> w.left < w.right
    ensures 1.0 <= k ==> w.left >= w.right
  {
    var k' := Sharpen(aggression, k);
    var v := 2.0 * vavg as real * k' / (1.0 + k');
    LeftShare(vavg, k');
    SplitShare(vavg, v);
    var left := Trunc(v);
    Wheels(left, Trunc(2.0 * vavg as real - left as real))
  }

  /**
   * Truncating a share v in [0, 2 vavg] and giving the rest to the other
   * wheel splits 2 vavg exactly, with the truncated share on v's side of vavg.
   */
  lemma SplitShare(vavg: nat, v: real)
    requires 0.0 <= v <= 2.0 * vavg as real
    ensures var left := Trunc(v);
            && 0 <= left <= 2 * vavg
            && Trunc(2.0 * vavg as real - left as real) == 2 * vavg - left
            && (v < vavg as real ==> left < vavg)
            && (vavg as real <= v ==> vavg <= left)
  {
    var left := Trunc(v);
    assert 2.0 * vavg as real - left as real == (2 * vavg - left) as real;
    TruncOfInt(2 * vavg - left);
  }

  /** Mode 0's wheel pair for a forward seed. */
  function Mode0Wheels(s: Seed): Wheels {
    match Classify(s)
    case Straight => Wheels(80, 80)
    case SoftTurn => TurnWheels(50, 1.0, s.k)
    case HardTurn => TurnWheels(20, 1.5, s.k)
    case Unbanded => Wheels(0, 0)
  }

  /**
   * `sendCommand` under Mode 0, the configured mode. A zero request returns the
   * zero command; otherwise the wheel pair (reverse pass-through or Mode 0
   * band) is clamped and converted.
   */
  function SendCommand(s: Seed): (t: Twist)
    ensures IsZeroRequest(s) ==> t == ZeroTwist
    ensures t.linear.y == 0.0 && t.linear.z == 0.0 && t.angular.x == 0.0 && t.angular.y == 0.0
    ensures -0.8 <= t.linear.x <= 0.8
    ensures -160.0 / 55.0 <= t.angular.z <= 160.0 / 55.0
    ensures IsForward(s) && s.vl == s.vr ==> t.linear.x == 0.8 && t.angular.z == 0.0
    ensures IsForward(s) ==> 0.0 <= t.linear.x
  {
    if IsZeroRequest(s) then ZeroTwist
    else if IsForward(s) then ToTwist(SaturateBoth(Mode0Wheels(s)))
    else ToTwist(SaturateBoth(ReverseWheels(s)))
  }

  /**
   * A reverse request bypasses the bands: the command carries exactly the
   * truncated requested speeds, clamped to [-80, 80].
   */
  lemma ReverseIsPassThrough(s: Seed)
    requires IsReverse(s)
    ensures WheelsOf(SendCommand(s)) == (Saturate(Trunc(s.vl)) as real, Saturate(Trunc(s.vr)) as real)
    ensures -80.0 <= s.vl <= 80.0 && -80.0 <= s.vr <= 80.0
            ==> WheelsOf(SendCommand(s)) == (Trunc(s.vl) as real, Trunc(s.vr) as real)
  {
    ToTwistRoundTrip(SaturateBoth(ReverseWheels(s)));
  }

  /**
   * Mode 0's bands, as commands: a straight seed drives at (80, 80); a soft
   * turn's wheels sum to 100 and a hard turn's to 40, turning toward the
   * slower side the ratio names; any other unequal forward seed yields the zero
   * command.
   */
  lemma Mode0Bands(s: Seed)
    requires IsForward(s)
    ensures Classify(s) == Straight ==> WheelsOf(SendCommand(s)) == (80.0, 80.0)
    ensures Classify(s) == SoftTurn ==> SendCommand(s).linear.x == 0.5
    ensures Classify(s) == HardTurn ==> SendCommand(s).linear.x == 0.2
    ensures Classify(s) in {SoftTurn, HardTurn} ==> (s.k < 1.0 <==> SendCommand(s).angular.z < 0.0)
    ensures Classify(s) == Unbanded ==> SendCommand(s) == ZeroTwist
    ensures Classify(s) == SoftTurn ==>
              WheelsOf(SendCommand(s)) == (TurnWheels(50, 1.0, s.k).left as real, TurnWheels(50, 1.0, s.k).right as real)
    ensures Classify(s) == HardTurn ==>
              WheelsOf(SendCommand(s)) == (TurnWheels(20, 1.5, s.k).left as real, TurnWheels(20, 1.5, s.k).right as real)
  {
    var w := Mode0Wheels(s);
    assert SaturateBoth(w) == w;
    ToTwistRoundTrip(w);
  }

  /** The four reserved turn ratios give these wheel pairs. */
  lemma TurnBandValues()
    ensures TurnWheels(50, 1.0, 1.258574) == Wheels(55, 45)
    ensures TurnWheels(50, 1.0, 0.794550) == Wheels(44, 56)
    ensures TurnWheels(20, 1.5, 1.352941) == Wheels(26, 14)
    ensures TurnWheels(20, 1.5, 0.739130) == Wheels(13, 27)
  {
    assert 55.0 <= 100.0 * 1.258574 / (1.0 + 1.258574) < 56.0;
    assert 44.0 <= 100.0 * 0.794550 / (1.0 + 0.794550) < 45.0;
    assert 26.0 <= 40.0 * (1.352941 * 1.5) / (1.0 + 1.352941 * 1.5) < 27.0;
    assert 13.0 <= 40.0 * (0.739130 / 1.5) / (1.0 + 0.739130 / 1.5) < 14.0;
  }

  // ---------------------------------------------------------------- Mode 1

  /**
   * The controller memory Mode 1 keeps in static variables. `previousError`
   * is never assigned by the source, so it keeps its initial value.
   */
  datatype PidState = PidState(myYaw: real, previousYaw: real, errorSum: real, previousError: real)

  const InitialPid: PidState := PidState(0.5, 1.0, 0.0, 0.0)

  /**
   * The first Mode 1 call sees the initial yaw history (0.5 after 1), so its
   * error carries a yaw rate of -0.5 / 0.37 that the robot never turned.
   */
  lemma FirstCallYawRate(s: Seed)
    requires IsForward(s)
    ensures Mode1Error(s, InitialPid) == Mode1Target(s) + 0.5 / 0.37
  {
  }

  /** The nine wheel pairs of Mode 1. */
  const HashSpeedLeft: seq<int> := [23, 30, 35, 38, 40, 42, 45, 50, 57]
  const HashSpeedRight: seq<int> := [57, 50, 45, 42, 40, 38, 35, 30, 23]

  /** Every pair sums to 80, the right table mirrors the left, and the left grows with the index. */
  lemma SpeedTables()
    ensures |HashSpeedLeft| == 9 && |HashSpeedRight| == 9
    ensures forall i | 0 <= i < 9 :: HashSpeedLeft[i] + HashSpeedRight[i] == 80
    ensures forall i | 0 <= i < 9 :: HashSpeedRight[i] == HashSpeedLeft[8 - i]
    ensures forall i, j | 0 <= i < j < 9 :: HashSpeedLeft[i] < HashSpeedLeft[j]
  {
  }

  /** Mode 1's starting table index from the ratio band. */
  function Mode1BaseIndex(k: real): (m: int)
    ensures 2 <= m <= 6
  {
    if k > 1.35 then 2
    else if k > 1.25 then 3
    else if k > 0.99 then 4
    else if k > 0.79 then 5
    else if k > 0.73 then 6
    else 4
  }

  /** The corrected index, clamped to the table. */
  function ClampIndex(m: int): (r: int)
    ensures 0 <= r <= 8
    ensures 0 <= m <= 8 ==> r == m
    ensures m < 0 ==> r == 0
    ensures m > 8 ==> r == 8
  {
    if m < 0 then 0 else if m > 8 then 8 else m
  }

  /** Mode 1's target curvature 5 (vl - vr) / (vl + vr) of a forward request. */
  function Mode1Target(s: Seed): real
    requires IsForward(s)
  {
    5.0 * (s.vl - s.vr) / (s.vl + s.vr)
  }

  /** The tracking error: the target minus the yaw rate seen over the last period (0.37 s). */
  function Mode1Error(s: Seed, pid: PidState): real
    requires IsForward(s)
  {
    Mode1Target(s) - (pid.myYaw - pid.previousYaw) / 0.37
  }

  /** The PID correction to the table index, truncated toward zero (Kp 6.4, Ki 0.0001, Kd 0.01). */
  function Mode1Correction(s: Seed, pid: PidState): int
    requires IsForward(s)
  {
    var error := Mode1Error(s, pid);
    Trunc(6.4 * error + 0.0001 * (pid.errorSum + error) + 0.01 * (error - pid.previousError))
  }

  /** The table index Mode 1 uses: the ratio band's index moved by the correction, clamped. */
  function Mode1Index(s: Seed, pid: PidState): (m: int)
    requires IsForward(s)
    ensures 0 <= m <= 8
  {
    ClampIndex(Mode1BaseIndex(s.k) + Mode1Correction(s, pid))
  }

  /**
   * One Mode 1 decision for a forward seed. `yaw` is the heading read during
   * the call; it only affects the next call, because the error is computed
   * from the yaw history before the read.
   */
  function Mode1Step(s: Seed, pid: PidState, yaw: real): (res: (Wheels, PidState))
    requires IsForward(s)
    ensures res.0 == Wheels(HashSpeedLeft[Mode1Index(s, pid)], HashSpeedRight[Mode1Index(s, pid)])
    ensures res.0.left + res.0.right == 80
    ensures 23 <= res.0.left <= 57 && 23 <= res.0.right <= 57
    ensures res.1.errorSum == pid.errorSum + Mode1Error(s, pid)
    ensures res.1.myYaw == yaw && res.1.previousYaw == pid.myYaw
    ensures res.1.previousError == pid.previousError
  {
    var error := Mode1Error(s, pid);
    var index := Mode1Index(s, pid);
    SpeedTables();
    (Wheels(HashSpeedLeft[index], HashSpeedRight[index]), PidState(yaw, pid.myYaw, pid.errorSum + error, pid.previousError))
  }

  /**
   * A larger correction never slows the left wheel nor speeds up the right
   * one: the controller steers monotonically through the tables.
   */
  lemma CorrectionMonotone(base: int, c1: int, c2: int)
    requires c1 <= c2
    ensures HashSpeedLeft[ClampIndex(base + c1)] <= HashSpeedLeft[ClampIndex(base + c2)]
    ensures HashSpeedRight[ClampIndex(base + c1)] >= HashSpeedRight[ClampIndex(base + c2)]
  {
    var i := ClampIndex(base + c1);
    var j := ClampIndex(base + c2);
    assert i <= j;
    SpeedTables();
    if i < j {
      assert HashSpeedLeft[i] < HashSpeedLeft[j];
      assert HashSpeedRight[i] == HashSpeedLeft[8 - i] && HashSpeedRight[j] == HashSpeedLeft[8 - j];
      assert HashSpeedLeft[8 - j] < HashSpeedLeft[8 - i];
    }
  }

  /**
   * `sendCommand` under Mode 1. A forward request drives the chosen table pair
   * (which needs no clamping) and advances the controller; zero and reverse
   * requests take Mode 0's path and leave the controller untouched.
   */
  function SendCommandMode1(s: Seed, pid: PidState, yaw: real): (res: (Twist, PidState))
    ensures IsZeroRequest(s) ==> res == (ZeroTwist, pid)
    ensures IsReverse(s) ==> res == (SendCommand(s), pid)
    ensures IsForward(s) ==>
              var step := Mode1Step(s, pid, yaw);
              && res.0 == ToTwist(step.0)
              && WheelsOf(res.0) == (step.0.left as real, step.0.right as real)
              && res.1 == step.1
    ensures IsForward(s) ==> res.0.linear.x == 0.4 && res.1.myYaw == yaw && res.1.previousYaw == pid.myYaw
    ensures IsForward(s) ==> -34.0 / 55.0 <= res.0.angular.z <= 34.0 / 55.0
  {
    if IsZeroRequest(s) then (ZeroTwist, pid)
    else if IsForward(s) then
      var step := Mode1Step(s, pid, yaw);
      ToTwistRoundTrip(SaturateBoth(step.0));
      (ToTwist(SaturateBoth(step.0)), step.1)
    else (ToTwist(SaturateBoth(ReverseWheels(s))), pid)
  }

  /**
   * With no controller correction, Mode 1's band for a ratio above 1.35 gives
   * the left wheel the lower speed, whereas Mode 0 gives it the higher one.
   */
  lemma Mode1BaseOpposesMode0()
    ensures HashSpeedLeft[Mode1BaseIndex(1.352941)] < HashSpeedRight[Mode1BaseIndex(1.352941)]
    ensures TurnWheels(20, 1.5, 1.352941).left > TurnWheels(20, 1.5, 1.352941).right
  {
    TurnBandValues();
  }

  // ---------------------------------------------------------------- Mode 2

  lemma CurvatureShape(k: real)
    requires k != -1.0
    ensures var c := 5.0 * (k - 1.0) / (k + 1.0);
            && (1.0 < k ==> 0.0 < c < 5.0)
            && (k == 1.0 ==> c == 0.0)
            && (-1.0 < k < 1.0 ==> c < 0.0)
            && (0.0 <= k ==> -5.0 <= c < 5.0)
            && (k < -1.0 ==> 5.0 < c)
  {
    var d := k + 1.0;
    var q := 10.0 / d;
    assert q * d == 10.0;
    assert 5.0 * (k - 1.0) / d == 5.0 - q;
    if d > 0.0 {
      assert 0.0 < q;
      assert d < 2.0 ==> q > 5.0;
      assert d > 2.0 ==> q < 5.0;
      assert d >= 1.0 ==> q <= 10.0;
    } else {
      assert q < 0.0;
    }
  }

  /**
   * Mode 2's target curvature 5 (k - 1) / (k + 1): positive exactly for ratios
   * above 1 (among ratios above -1) and within [-5, 5) for non-negative ones.
   */
  function Mode2Curvature(k: real): (c: real)
    requires k != -1.0
    ensures 1.0 < k ==> 0.0 < c < 5.0
    ensures k == 1.0 ==> c == 0.0
    ensures -1.0 < k < 1.0 ==> c < 0.0
    ensures 0.0 <= k ==> -5.0 <= c < 5.0
    ensures k < -1.0 ==> 5.0 < c
  {
    CurvatureShape(k);
    5.0 * (k - 1.0) / (k + 1.0)
  }

  /**
   * `sendCommand` under Mode 2: a forward seed only publishes a new target
   * curvature for the background loop and issues the zero command.
   */
  function SendCommandMode2(s: Seed, curvature: real): (res: (Twist, real))
    requires IsForward(s) ==> s.k != -1.0
    ensures IsForward(s) ==> res.1 == Mode2Curvature(s.k)
    ensures !IsForward(s) ==> res.1 == curvature
    ensures IsForward(s) ==> res.0 == ZeroTwist
    ensures !IsForward(s) ==> res.0 == SendCommand(s)
    ensures IsForward(s) && 0.0 <= s.k ==> -5.0 <= res.1 < 5.0
    ensures IsForward(s) && -1.0 < s.k ==> (res.1 > 0.0 <==> s.k > 1.0)
  {
    if IsZeroRequest(s) then (ZeroTwist, curvature)
    else if IsForward(s) then (ToTwist(Wheels(0, 0)), Mode2Curvature(s.k))
    else (ToTwist(SaturateBoth(ReverseWheels(s))), curvature)
  }
}

=== FILE: geometry.dfy ===
/**
 * C's `(int)` cast and the placement of a seed offset at a pose. The
 * trigonometry of the source (sin and cos of the heading in degrees) is a
 * parameter of the model: `rot(alpha, a, b)` is the offset (a, b) rotated for
 * heading alpha, that is (a sin alpha + b cos alpha, -a cos alpha + b sin alpha).
 */
module Geometry {
  import opened Types

  /** The conversion of a double to `int`: truncation toward zero. */
  function Trunc(v: real): (r: int)
    ensures 0.0 <= v ==> 0 <= r && r as real <= v < r as real + 1.0
    ensures v < 0.0 ==> r <= 0 && r as real - 1.0 < v <= r as real
  {
    if v >= 0.0 then v.Floor else -((-v).Floor)
  }

  /** Truncation leaves an integral value unchanged. */
  lemma TruncOfInt(i: int)
    ensures Trunc(i as real) == i
  {
  }

  predicate IsIntegral(v: real) {
    Trunc(v) as real == v
  }

  /** The rotated offset for a heading in degrees and an offset (a, b). */
  type Rotation = (real, real, real) -> (real, real)

  /** The grid cell reached from `origin` by the offset (a, b) rotated for heading `alpha`. */
  function Place(rot: Rotation, origin: Pose, alpha: real, a: real, b: real): (int, int)
  {
    var off := rot(alpha, a, b);
    (Trunc(origin.x + off.0), Trunc(origin.y + off.1))
  }
}

=== FILE: grid.dfy ===
/**
 * The occupancy grid: the walkability test of a seed placed at a parent pose
 * (`isWalkable`) and the stamping of a square obstacle (`addObstacleP`).
 * MAP_MAX is the side of the square grid.
 */
module ObstacleGrid {
  import opened Types
  import opened Geometry

  predicate InMap(g: Grid, a: int, b: int) {
    0 <= a < |g| && 0 <= b < |g|
  }

  /**
   * The cell under a footprint sample: the sample is first truncated to
   * integers, then rotated for the parent's heading and offset by its position.
   */
  function FootprintCell(rot: Rotation, parent: Pose, pt: SeedPoint): (int, int) {
    Place(rot, parent, parent.z, Trunc(pt.x) as real, Trunc(pt.y) as real)
  }

  /** The cell under footprint sample `pt` is inside the map and free. */
  predicate CellFree(g: Grid, rot: Rotation, parent: Pose, pt: SeedPoint)
    requires IsSquare(g)
  {
    var c := FootprintCell(rot, parent, pt);
    InMap(g, c.0, c.1) && g[c.0][c.1] == 0
  }

  /** Reference meaning of walkability: every footprint cell is in the map and free. */
  predicate Walkable(g: Grid, rot: Rotation, parent: Pose, s: Seed)
    requires IsSquare(g)
  {
    forall i | 0 <= i < |s.points| :: CellFree(g, rot, parent, s.points[i])
  }

  /**
   * `isWalkable`: scans the footprint of the seed that produced `s`, returning
   * false at the first sample outside the map and otherwise multiplying a flag
   * by whether each cell is free.
   */
  method IsWalkable(g: Grid, rot: Rotation, seeds: seq<Seed>, parent: State, s: State) returns (b: bool)
    requires IsSquare(g)
    requires 0 <= s.seedId < |seeds|
    ensures b <==> Walkable(g, rot, parent.pose, seeds[s.seedId])
  {
    var pts := seeds[s.seedId].points;
    var flag := 1;
    var i := 0;
    while i < |pts|
      invariant 0 <= i <= |pts|
      invariant flag == 0 || flag == 1
      invariant forall i' | 0 <= i' < i :: var c := FootprintCell(rot, parent.pose, pts[i']); InMap(g, c.0, c.1)
      invariant flag == 1 <==> forall i' | 0 <= i' < i :: CellFree(g, rot, parent.pose, pts[i'])
    {
      var c := FootprintCell(rot, parent.pose, pts[i]);
      if InMap(g, c.0, c.1) {
        flag := if g[c.0][c.1] == 0 then flag * 1 else flag * 0;
      } else {
        return false;
      }
      i := i + 1;
    }
    return flag == 1;
  }

  // ---------------------------------------------------------------- addObstacleP

  /** The square of half-side r around (x, y): offsets i, j in [-r, r). */
  predicate InSquare(x: int, y: int, r: int, a: int, b: int) {
    x - r <= a < x + r && y - r <= b < y + r
  }

  /** The source's index guard: `0 <= v <= MAP_MAX`, which admits MAP_MAX itself. */
  predicate GuardAsWritten(n: int, v: int) {
    v >= 0 && v <= n
  }

  /** The guard the grid's bounds call for: `0 <= v < MAP_MAX`. */
  predicate Guard(n: int, v: int) {
    v >= 0 && v < n
  }

  /**
   * As written, the guard lets the stamp write row (or column) MAP_MAX, one past
   * the grid: for every square that reaches past the edge, some index
   * x + i, i in [-r, r), passes the guard although it lies outside the map.
   */
  lemma GuardAsWrittenAdmitsMapMax(n: nat, x: int, r: int)
    requires x - r <= n < x + r
    ensures exists v | x - r <= v < x + r :: GuardAsWritten(n, v) && !Guard(n, v)
  {
    assert GuardAsWritten(n, n) && !Guard(n, n);
  }

  /** When the square stays below MAP_MAX the two guards agree on every visited offset. */
  lemma GuardsAgreeInsideMap(n: nat, x: int, r: int)
    requires x + r <= n
    ensures forall v | x - r <= v < x + r :: GuardAsWritten(n, v) == Guard(n, v)
  {
  }

  /** Reference grid after stamping: cells of the square become occupied. */
  function Stamp(g: Grid, x: int, y: int, r: int): (g': Grid)
    requires IsSquare(g)
    ensures |g'| == |g| && IsSquare(g')
  {
    seq(|g|, a requires 0 <= a < |g| =>
      seq(|g|, b requires 0 <= b < |g| =>
        if InSquare(x, y, r, a, b) then Occupied else g[a][b]))
  }

  /**
   * `addObstacleP` with the in-bounds guard: sets to 255 exactly the cells
   * (x + i, y + j), i and j in [-r, r), that lie in the map; every other cell
   * keeps its value.
   */
  method AddObstacleP(g0: Grid, x: int, y: int, r: int) returns (g: Grid)
    requires IsSquare(g0)
    ensures |g| == |g0| && IsSquare(g)
    ensures forall a, b | InMap(g0, a, b) ::
              g[a][b] == (if InSquare(x, y, r, a, b) then Occupied else g0[a][b])
    ensures g == Stamp(g0, x, y, r)
  {
    var n := |g0|;
    g := g0;
    var i := -r;
    while i < r
      invariant i == -r || -r <= i <= r
      invariant |g| == n && IsSquare(g)
      invariant forall a, b | InMap(g0, a, b) ::
                  g[a][b] == (if x - r <= a < x + i && y - r <= b < y + r then Occupied else g0[a][b])
    {
      if Guard(n, x + i) {
        var j := -r;
        while j < r
          invariant j == -r || -r <= j <= r
          invariant |g| == n && IsSquare(g)
          invariant forall a, b | InMap(g0, a, b) ::
                      g[a][b] == (if (x - r <= a < x + i && y - r <= b < y + r) || (a == x + i && y - r <= b < y + j)
                                  then Occupied else g0[a][b])
        {
          if Guard(n, y + j) {
            g := g[x + i := g[x + i][y + j := Occupied]];
          }
          j := j + 1;
        }
      }
      i := i + 1;
    }
    assert forall a | 0 <= a < n :: g[a] == Stamp(g0, x, y, r)[a];
  }

  /** Stamping the same square twice changes nothing more. */
  lemma StampIdempotent(g: Grid, x: int, y: int, r: int)
    requires IsSquare(g)
    ensures Stamp(Stamp(g, x, y, r), x, y, r) == Stamp(g, x, y, r)
  {
    var once := Stamp(g, x, y, r);
    var twice := Stamp(once, x, y, r);
    assert forall a | 0 <= a < |g| :: twice[a] == once[a];
  }

  /** Stamping never frees a cell: an occupied cell stays occupied. */
  lemma StampNeverClears(g: Grid, x: int, y: int, r: int, a: int, b: int)
    requires IsSquare(g) && InMap(g, a, b)
    requires g[a][b] != 0
    ensures Stamp(g, x, y, r)[a][b] != 0
  {
  }

  /**
   * After stamping, a seed whose footprint crosses the square is no longer
   * walkable; and a walkable placement stays walkable after stamping only if
   * its footprint avoids the square.
   */
  lemma StampBlocksFootprint(g: Grid, rot: Rotation, parent: Pose, s: Seed, x: int, y: int, r: int, k: int)
    requires IsSquare(g)
    requires 0 <= k < |s.points|
    requires var c := FootprintCell(rot, parent, s.points[k]); InSquare(x, y, r, c.0, c.1)
    ensures !Walkable(Stamp(g, x, y, r), rot, parent, s)
  {
    var g' := Stamp(g, x, y, r);
    var c := FootprintCell(rot, parent, s.points[k]);
    if InMap(g', c.0, c.1) {
      assert g'[c.0][c.1] == Occupied;
    }
    assert !CellFree(g', rot, parent, s.points[k]);
  }
}

=== FILE: ordering.dfy ===
/**
 * The two comparators of the planner: `PoseCompare`, the key order of the
 * parent-link map, and `StateCompare`, the priority order of the open set.
 */
module Ordering {
  import opened Types

  // ---------------------------------------------------------------- PoseCompare

  /** Cantor's pairing formula, evaluated on reals as the source does on doubles. */
  function CantorPair(a: real, b: real): real {
    0.5 * (a + b) * (a + b + 1.0) + b
  }

  /** The scalar key of a pose: the pairing of (pairing of x and y) with z. */
  function CantorKey(p: Pose): real {
    CantorPair(CantorPair(p.x, p.y), p.z)
  }

  /** The source's map-key order: compare the Cantor keys. */
  predicate PoseCompare(p: Pose, q: Pose) {
    CantorKey(p) < CantorKey(q)
  }

  /** Two keys that `std::map` treats as the same entry: neither precedes the other. */
  predicate SameMapKey(p: Pose, q: Pose) {
    !PoseCompare(p, q) && !PoseCompare(q, p)
  }

  /**
   * The pairing is not injective once a coordinate is negative: the poses
   * (0, 0, -1) and (1, 0, -1) share the key -1, so the parent-link map stores
   * them in one entry and a link recorded for one is found for the other.
   */
  lemma PoseCompareConflatesDistinctPoses()
    ensures Pose(0.0, 0.0, -1.0) != Pose(1.0, 0.0, -1.0)
    ensures SameMapKey(Pose(0.0, 0.0, -1.0), Pose(1.0, 0.0, -1.0))
  {
    assert CantorPair(0.0, 0.0) == 0.0;
    assert CantorPair(1.0, 0.0) == 1.0;
    assert CantorPair(0.0, -1.0) == -1.0;
    assert CantorPair(1.0, -1.0) == -1.0;
  }

  /** n-th triangular number, n(n+1)/2. */
  function Tri(n: nat): nat {
    if n == 0 then 0 else Tri(n - 1) + n
  }

  lemma {:induction false} TriClosedForm(n: nat)
    ensures 2 * Tri(n) == n * (n + 1)
  {
    if n > 0 {
      TriClosedForm(n - 1);
    }
  }

  lemma {:induction false} TriMonotone(n: nat, m: nat)
    requires n < m
    ensures Tri(n) + n < Tri(m)
  {
    if m > n + 1 {
      TriMonotone(n, m - 1);
    }
  }

  /** On naturals the pairing is the integer Cantor pairing Tri(a + b) + b. */
  lemma CantorPairOnNaturals(a: nat, b: nat)
    ensures CantorPair(a as real, b as real) == (Tri(a + b) + b) as real
  {
    TriClosedForm(a + b);
    var m := a + b;
    var n := m as real;
    assert (m * (m + 1)) as real == n * (n + 1.0);
    assert 2.0 * (Tri(m) as real) == (2 * Tri(m)) as real;
  }

  lemma CantorPairInjectiveOnNaturals(a: nat, b: nat, c: nat, d: nat)
    requires Tri(a + b) + b == Tri(c + d) + d
    ensures a == c && b == d
  {
    if a + b < c + d {
      TriMonotone(a + b, c + d);
    } else if c + d < a + b {
      TriMonotone(c + d, a + b);
    }
  }

  /**
   * On poses whose coordinates are non-negative integers the Cantor key is
   * injective, so there `PoseCompare` orders distinct poses strictly.
   */
  lemma CantorKeyInjectiveOnNaturals(p: Pose, q: Pose, px: nat, py: nat, pz: nat, qx: nat, qy: nat, qz: nat)
    requires p == Pose(px as real, py as real, pz as real)
    requires q == Pose(qx as real, qy as real, qz as real)
    requires CantorKey(p) == CantorKey(q)
    ensures p == q
  {
    CantorPairOnNaturals(px, py);
    CantorPairOnNaturals(qx, qy);
    var pi: nat := Tri(px + py) + py;
    var qi: nat := Tri(qx + qy) + qy;
    CantorPairOnNaturals(pi, pz);
    CantorPairOnNaturals(qi, qz);
    CantorPairInjectiveOnNaturals(pi, pz, qi, qz);
    CantorPairInjectiveOnNaturals(px, py, qx, qy);
  }

  /**
   * The key order intended: lexicographic on (x, y, z). It is a strict total
   * order on poses, so distinct poses are distinct map keys.
   */
  predicate PoseLess(p: Pose, q: Pose) {
    || p.x < q.x
    || (p.x == q.x && p.y < q.y)
    || (p.x == q.x && p.y == q.y && p.z < q.z)
  }

  lemma PoseLessIsStrictTotalOrder(p: Pose, q: Pose, r: Pose)
    ensures !PoseLess(p, p)
    ensures PoseLess(p, q) ==> !PoseLess(q, p)
    ensures PoseLess(p, q) && PoseLess(q, r) ==> PoseLess(p, r)
    ensures p != q ==> PoseLess(p, q) || PoseLess(q, p)
  {
  }

  /** Under the lexicographic order only equal poses share a map entry. */
  lemma PoseLessKeysAreExact(p: Pose, q: Pose)
    ensures !PoseLess(p, q) && !PoseLess(q, p) <==> p == q
  {
  }

  // ---------------------------------------------------------------- StateCompare

  /** The priority of a search node: path cost plus heuristic. */
  function Priority(s: State): real {
    s.gDist + s.hDist
  }

  /**
   * The open-set comparator: `a` ranks below `b` when its priority is larger,
   * so the queue's top is a node of least priority. The obstacle terms are
   * compiled out in the active configuration.
   */
  predicate StateCompare(a: State, b: State) {
    Priority(a) > Priority(b)
  }

  /**
   * StateCompare is a strict weak order (irreflexive, transitive, with
   * transitive incomparability), as a priority queue needs, and ignores the
   * obstacle-cost pair.
   */
  lemma StateCompareIsStrictWeakOrder(a: State, b: State, c: State)
    ensures !StateCompare(a, a)
    ensures StateCompare(a, b) && StateCompare(b, c) ==> StateCompare(a, c)
    ensures !StateCompare(a, b) && !StateCompare(b, a) && !StateCompare(b, c) && !StateCompare(c, b)
            ==> !StateCompare(a, c) && !StateCompare(c, a)
    ensures StateCompare(a, b) == StateCompare(a.(gObs := c.gObs, hObs := c.hObs), b)
  {
  }

  /**
   * A node outranked by no other node under StateCompare is exactly a node of
   * least priority: the queue pops the cheapest node first.
   */
  lemma QueueTopIsCheapest(open: seq<State>, top: State)
    ensures (forall i | 0 <= i < |open| :: !StateCompare(top, open[i]))
        <==> (forall i | 0 <= i < |open| :: Priority(top) <= Priority(open[i]))
  {
  }
}

=== FILE: proximity.dfy ===
/**
 * Near-equality of poses (`isEqual`, `targetReached`) and the goal-footprint
 * test `onTarget`. The source compares sqrt(dx^2 + dy^2) with a threshold; the
 * model compares the squared distance with the squared threshold, and
 * `SquaredTestMatchesDistance` shows the two agree.
 */
module Proximity {
  import opened Types
  import opened Geometry

  /** Deduplication threshold of the search. */
  const EqualRadius: real := 35.0
  /** Goal-proximity threshold of the search. */
  const TargetRadius: real := 250.0

  /** Squared distance in the plane; the heading plays no part. */
  function Dist2(a: Pose, b: Pose): real {
    (a.x - b.x) * (a.x - b.x) + (a.y - b.y) * (a.y - b.y)
  }

  /** `isEqual`: the two poses are closer than 35 units in the plane. */
  predicate IsEqual(a: Pose, b: Pose) {
    Dist2(a, b) < EqualRadius * EqualRadius
  }

  /** `targetReached`: the two poses are closer than 250 units in the plane. */
  predicate TargetReached(a: Pose, b: Pose) {
    Dist2(a, b) < TargetRadius * TargetRadius
  }

  lemma SquareMonotone(d: real, t: real)
    requires 0.0 <= d && 0.0 < t
    ensures d < t <==> d * d < t * t
  {
    var u, v := t - d, t + d;
    assert t * t - d * d == u * v;
    if d < t {
      ProductSign(u, v);
    } else {
      ProductSign(-u, v);
    }
  }

  lemma ProductSign(u: real, v: real)
    requires 0.0 <= u && 0.0 < v
    ensures 0.0 <= u * v
    ensures 0.0 < u ==> 0.0 < u * v
  {
  }

  /**
   * For the Euclidean distance d (the non-negative root of the squared
   * distance) the squared tests decide exactly `d < 35` and `d < 250`.
   */
  lemma SquaredTestMatchesDistance(a: Pose, b: Pose, d: real)
    requires 0.0 <= d && d * d == Dist2(a, b)
    ensures IsEqual(a, b) <==> d < EqualRadius
    ensures TargetReached(a, b) <==> d < TargetRadius
  {
    SquareMonotone(d, EqualRadius);
    SquareMonotone(d, TargetRadius);
  }

  /**
   * Both tests are reflexive and symmetric, read only x and y, and a pose equal
   * to the target has reached it.
   */
  lemma NearEqualityProperties(a: Pose, b: Pose, z1: real, z2: real)
    ensures IsEqual(a, a) && TargetReached(a, a)
    ensures IsEqual(a, b) == IsEqual(b, a)
    ensures TargetReached(a, b) == TargetReached(b, a)
    ensures IsEqual(a, b) == IsEqual(a.(z := z1), b.(z := z2))
    ensures TargetReached(a, b) == TargetReached(a.(z := z1), b.(z := z2))
    ensures IsEqual(a, b) ==> TargetReached(a, b)
  {
    assert (a.x - b.x) * (a.x - b.x) == (b.x - a.x) * (b.x - a.x);
    assert (a.y - b.y) * (a.y - b.y) == (b.y - a.y) * (b.y - a.y);
    assert Dist2(a.(z := z1), b.(z := z2)) == Dist2(a, b);
  }

  /**
   * The pose `onTarget` probes for seed `s` and its j-th footprint sample: the
   * sample's x paired with the seed destination's y (not the sample's y),
   * rotated for the current heading.
   */
  function TargetProbe(rot: Rotation, current: Pose, s: Seed, j: int): Pose
    requires 0 <= j < |s.points|
  {
    var c := Place(rot, current, current.z, s.points[j].x, s.dest.y);
    Pose(c.0 as real, c.1 as real, current.z)
  }

  /** `onTarget`: whether some probe of some seed lies within 35 units of the goal. */
  method OnTarget(seeds: seq<Seed>, rot: Rotation, current: Pose, goal: Pose) returns (b: bool)
    ensures b <==> exists i, j | 0 <= i < |seeds| && 0 <= j < |seeds[i].points|
                      :: IsEqual(TargetProbe(rot, current, seeds[i], j), goal)
  {
    var i := 0;
    while i < |seeds|
      invariant 0 <= i <= |seeds|
      invariant forall i', j | 0 <= i' < i && 0 <= j < |seeds[i'].points|
                  :: !IsEqual(TargetProbe(rot, current, seeds[i'], j), goal)
    {
      var j := 0;
      while j < |seeds[i].points|
        invariant 0 <= j <= |seeds[i].points|
        invariant forall j' | 0 <= j' < j :: !IsEqual(TargetProbe(rot, current, seeds[i], j'), goal)
      {
        if IsEqual(TargetProbe(rot, current, seeds[i], j), goal) {
          return true;
        }
        j := j + 1;
      }
      i := i + 1;
    }
    return false;
  }
}

=== FILE: reconstruct.dfy ===
/**
 * Path reconstruction (`reconstructPath`): walk the parent-link map back from
 * the terminal state, prepending each pose, and remember the seed of the last
 * link walked, which is the first step away from the root.
 */
module Reconstruction {
  import opened Types
  import opened Wrappers
  import Command

  /** The parent-link table `came_from`: pose -> parent state. */
  type CameFrom = map<Pose, State>

  /**
   * The number of links the walk from `p` follows before reaching a pose
   * without an entry, if that happens within `fuel` links.
   */
  function Steps(cf: CameFrom, p: Pose, fuel: nat): Option<nat>
    decreases fuel
  {
    if p !in cf then Some(0)
    else if fuel == 0 then None
    else
      match Steps(cf, cf[p].pose, fuel - 1)
      case None => None
      case Some(n) => Some(n + 1)
  }

  /**
   * The walk from `p` ends. A walk that ends visits each key at most once, so
   * |cf| links always suffice; on a cyclic table the source loops forever.
   */
  predicate Terminates(cf: CameFrom, p: Pose) {
    Steps(cf, p, |cf|).Some?
  }

  function StepCount(cf: CameFrom, p: Pose): nat
    requires Terminates(cf, p)
  {
    Steps(cf, p, |cf|).value
  }

  lemma {:induction false} StepsFuelMonotone(cf: CameFrom, p: Pose, fuel: nat, more: nat)
    requires fuel <= more
    requires Steps(cf, p, fuel).Some?
    ensures Steps(cf, p, more) == Steps(cf, p, fuel)
    decreases fuel
  {
    if p in cf {
      StepsFuelMonotone(cf, cf[p].pose, fuel - 1, more - 1);
    }
  }

  /** One link closer to the root: the parent's walk is one link shorter. */
  lemma ParentStepsFewer(cf: CameFrom, p: Pose)
    requires p in cf && Terminates(cf, p)
    ensures Terminates(cf, cf[p].pose)
    ensures StepCount(cf, cf[p].pose) + 1 == StepCount(cf, p)
  {
    StepsFuelMonotone(cf, cf[p].pose, |cf| - 1, |cf|);
  }

  /** A pose that is its own parent is never left: the source's loop does not end. */
  lemma {:induction false} SelfLinkNeverTerminates(cf: CameFrom, p: Pose, fuel: nat)
    requires p in cf && cf[p].pose == p
    ensures Steps(cf, p, fuel).None?
    decreases fuel
  {
    if fuel > 0 {
      SelfLinkNeverTerminates(cf, p, fuel - 1);
    }
  }

  /**
   * `path` is the parent chain ending at `current`: empty when `current` has
   * no link; otherwise it ends with `current`'s pose, every entry has a link,
   * each entry's parent is the entry before it, and the first entry's parent
   * (the root) has no link of its own.
   */
  predicate IsParentChain(cf: CameFrom, current: State, path: seq<Pose>) {
    && (path == [] <==> current.pose !in cf)
    && (path != [] ==>
          && path[|path| - 1] == current.pose
          && (forall i | 0 <= i < |path| :: path[i] in cf)
          && (forall i | 0 < i < |path| :: cf[path[i]].pose == path[i - 1])
          && cf[path[0]].pose !in cf)
  }

  /**
   * The seed of the first step away from the root: the seed id of the state at
   * the chain's first pose, or -1 for an empty chain.
   */
  function FirstStepSeed(cf: CameFrom, current: State, path: seq<Pose>): int
    requires IsParentChain(cf, current, path)
  {
    if |path| == 0 then -1
    else if |path| == 1 then current.seedId
    else cf[path[1]].seedId
  }

  /** The backward walk of the source's loop: the path walked and the last seed id seen. */
  function WalkBack(cf: CameFrom, s: State): (res: (seq<Pose>, int))
    requires Terminates(cf, s.pose)
    ensures IsParentChain(cf, s, res.0)
    ensures res.1 == FirstStepSeed(cf, s, res.0)
    ensures |res.0| == StepCount(cf, s.pose)
    decreases StepCount(cf, s.pose)
  {
    if s.pose !in cf then ([], -1)
    else
      ParentStepsFewer(cf, s.pose);
      var parent := cf[s.pose];
      var rest := WalkBack(cf, parent);
      (rest.0 + [s.pose], if rest.0 == [] then s.seedId else rest.1)
  }

  /** The parent chain ending at a state is unique: the walk finds the only one. */
  lemma {:induction false} ParentChainUnique(cf: CameFrom, current: State, path: seq<Pose>)
    requires Terminates(cf, current.pose)
    requires IsParentChain(cf, current, path)
    ensures path == WalkBack(cf, current).0
    decreases StepCount(cf, current.pose)
  {
    if current.pose in cf {
      ParentStepsFewer(cf, current.pose);
      var parent := cf[current.pose];
      var prefix := path[..|path| - 1];
      assert path == prefix + [current.pose];
      if |path| > 1 {
        assert prefix[|prefix| - 1] == parent.pose;
        assert IsParentChain(cf, parent, prefix);
      } else {
        assert parent.pose !in cf;
      }
      ParentChainUnique(cf, parent, prefix);
    }
  }

  /**
   * The seed id the walk ends on is one the command step can use: the
   * sentinel -1 or an index into the catalog. It is the only id the source
   * uses to index `seeds`, which it does without a check.
   */
  predicate UsableSeedId(id: int, n: nat) {
    id == -1 || 0 <= id < n
  }

  /** Every linked state carries a non-negative seed id, as `neighborNodes` assigns them. */
  predicate LinkedIdsNonNegative(cf: CameFrom, current: State) {
    && (current.pose in cf ==> 0 <= current.seedId)
    && (forall p | p in cf && cf[p].pose in cf :: 0 <= cf[p].seedId)
  }

  /** What reconstruction produces: the path, the sentinel seed id and the command issued. */
  datatype Outcome = Outcome(path: seq<Pose>, seedId: int, command: Option<Twist>)

  /**
   * `reconstructPath` (both overloads): rebuild the path, then issue the
   * command of the first seed, or report "invalid command requested" (no
   * command) when the terminal state has no link. The first overload returns
   * the command, the zero command in the invalid case; the second discards it.
   */
  function ReconstructPath(cf: CameFrom, current: State, seeds: seq<Seed>): (o: Outcome)
    requires Terminates(cf, current.pose)
    requires UsableSeedId(WalkBack(cf, current).1, |seeds|)
    ensures IsParentChain(cf, current, o.path)
    ensures current.pose !in cf ==> o.seedId == -1
    ensures o.seedId == FirstStepSeed(cf, current, o.path)
    ensures o.command.None? <==> o.seedId == -1
    ensures o.path != [] ==> cf[o.path[0]].pose !in o.path
    ensures o.seedId != -1 ==> 0 <= o.seedId < |seeds| && o.command == Some(Command.SendCommand(seeds[o.seedId]))
  {
    var walk := WalkBack(cf, current);
    var path := walk.0;
    if walk.1 == -1 then
      Outcome(path, -1, None)
    else
      assert |path| > 1 ==> cf[path[1]].pose == path[0];
      Outcome(path, walk.1, Some(Command.SendCommand(seeds[walk.1])))
  }

  /**
   * When every linked state carries a non-negative seed id, reconstruction
   * reports "invalid command requested" exactly when the state has no link.
   */
  lemma NoCommandIffNoLink(cf: CameFrom, current: State, seeds: seq<Seed>)
    requires Terminates(cf, current.pose)
    requires UsableSeedId(WalkBack(cf, current).1, |seeds|)
    requires LinkedIdsNonNegative(cf, current)
    ensures ReconstructPath(cf, current, seeds).command.None? <==> current.pose !in cf
  {
    var o := ReconstructPath(cf, current, seeds);
    if current.pose in cf {
      var path := o.path;
      assert path != [] && path[|path| - 1] == current.pose;
      if |path| > 1 {
        assert cf[path[1]].pose == path[0] && path[0] in cf;
      }
    }
  }

  /** The command the first overload returns. */
  function ReturnedTwist(o: Outcome): Twist {
    match o.command
    case Some(t) => t
    case None => ZeroTwist
  }

  /**
   * The first overload returns the first step's command, or the default
   * (all-zero) command when there is no step to take.
   */
  lemma FirstOverloadReturns(cf: CameFrom, current: State, seeds: seq<Seed>)
    requires Terminates(cf, current.pose)
    requires UsableSeedId(WalkBack(cf, current).1, |seeds|)
    ensures var o := ReconstructPath(cf, current, seeds);
            && (o.seedId == -1 ==> ReturnedTwist(o) == ZeroTwist)
            && (o.seedId != -1 ==> ReturnedTwist(o) == Command.SendCommand(seeds[o.seedId]))
  {
  }
}

=== FILE: successors.dfy ===
/**
 * Successor generation (`neighborNodes`): one child state per seed, placed by
 * rotating the seed's destination for the current heading.
 */
module Successors {
  import opened Types
  import opened Geometry
  import ObstacleGrid

  /**
   * The child produced by seed `s` (catalog index i) from `current`: the
   * position is truncated to integers, the heading is (int)(dz - (90 - z)),
   * the cost is the seed's own cost and every other cost term is zero.
   */
  function Neighbor(rot: Rotation, current: State, s: Seed, i: int): State {
    var c := Place(rot, current.pose, current.pose.z, s.dest.x, s.dest.y);
    var heading := Trunc(s.dest.z - (90.0 - current.pose.z));
    State(Pose(c.0 as real, c.1 as real, heading as real), s.cost, 0.0, i, 0.0, 0.0)
  }

  /** `neighborNodes`: children appended in catalog order. */
  function NeighborNodes(seeds: seq<Seed>, rot: Rotation, current: State): (r: seq<State>)
    ensures |r| == |seeds|
    ensures forall i | 0 <= i < |r| ::
              && r[i].seedId == i
              && r[i].gDist == seeds[i].cost
              && r[i].hDist == 0.0 && r[i].gObs == 0.0 && r[i].hObs == 0.0
              && r[i].pose == Neighbor(rot, current, seeds[i], i).pose
  {
    if |seeds| == 0 then []
    else
      var n := |seeds| - 1;
      NeighborNodes(seeds[..n], rot, current) + [Neighbor(rot, current, seeds[n], n)]
  }

  /**
   * With integral headings the child's heading is exactly the parent's heading
   * plus the seed's heading minus 90, so a seed whose destination heading is
   * 90 keeps the heading.
   */
  lemma NeighborHeading(seeds: seq<Seed>, rot: Rotation, current: State, i: int)
    requires 0 <= i < |seeds|
    requires IsIntegral(current.pose.z) && IsIntegral(seeds[i].dest.z)
    ensures NeighborNodes(seeds, rot, current)[i].pose.z == current.pose.z + seeds[i].dest.z - 90.0
    ensures seeds[i].dest.z == 90.0 ==> NeighborNodes(seeds, rot, current)[i].pose.z == current.pose.z
  {
    var child := Neighbor(rot, current, seeds[i], i);
    HeadingUpdateIsExact(current.pose.z, seeds[i].dest.z);
    assert child.pose.z == current.pose.z + seeds[i].dest.z - 90.0;
    var r := NeighborNodes(seeds, rot, current);
    assert r[i].pose == child.pose;
  }

  /** Children lie on integer coordinates, as the parent-link map's keys do. */
  lemma NeighborPositionIntegral(seeds: seq<Seed>, rot: Rotation, current: State, i: int)
    requires 0 <= i < |seeds|
    ensures IsIntegral(NeighborNodes(seeds, rot, current)[i].pose.x)
    ensures IsIntegral(NeighborNodes(seeds, rot, current)[i].pose.y)
  {
    var r := NeighborNodes(seeds, rot, current);
    var c := Place(rot, current.pose, current.pose.z, seeds[i].dest.x, seeds[i].dest.y);
    assert r[i].pose == Neighbor(rot, current, seeds[i], i).pose;
    assert r[i].pose.x == c.0 as real && r[i].pose.y == c.1 as real;
    TruncOfInt(c.0);
    TruncOfInt(c.1);
  }

  lemma HeadingUpdateIsExact(z: real, dz: real)
    requires IsIntegral(z) && IsIntegral(dz)
    ensures Trunc(dz - (90.0 - z)) as real == z + dz - 90.0
  {
    var zi := Trunc(z) + Trunc(dz) - 90;
    assert dz - (90.0 - z) == zi as real;
    TruncOfInt(zi);
  }

  /**
   * A straight seed with destination (0, 100, 90) expanded once from (0, 0, 90),
   * under a rotation exact at 90 degrees, yields the child (0, 100, 90) with
   * the seed's cost.
   */
  lemma StraightSeedExpansion(s: Seed, rot: Rotation, current: State)
    requires s.dest == Pose(0.0, 100.0, 90.0)
    requires current.pose == Pose(0.0, 0.0, 90.0)
    requires rot(90.0, 0.0, 100.0) == (0.0, 100.0)
    ensures NeighborNodes([s], rot, current) == [State(Pose(0.0, 100.0, 90.0), s.cost, 0.0, 0, 0.0, 0.0)]
  {
    var r := NeighborNodes([s], rot, current);
    assert Trunc(100.0) == 100;
    assert r[0] == State(Pose(0.0, 100.0, 90.0), s.cost, 0.0, 0, 0.0, 0.0);
  }

  /**
   * The search's placement and the walkability test agree: when a seed's
   * footprint sample sits on its (integral) destination, the cell checked for
   * that sample is the child's position.
   */
  lemma FootprintReachesNeighbor(rot: Rotation, current: State, s: Seed, i: int, k: int)
    requires 0 <= k < |s.points|
    requires IsIntegral(s.dest.x) && IsIntegral(s.dest.y)
    requires s.points[k] == SeedPoint(s.dest.x, s.dest.y)
    ensures var c := ObstacleGrid.FootprintCell(rot, current.pose, s.points[k]);
            var p := Neighbor(rot, current, s, i).pose;
            c.0 as real == p.x && c.1 as real == p.y
  {
  }
}

=== FILE: types.dfy ===
/**
 * The planner's records: poses (`Triplet`), search states, motion primitives
 * ("seeds"), the occupancy grid and the velocity command (`Twist`).
 * Doubles of the source are modelled as `real`.
 */
module Types {

  /** A pose: position (x, y) and heading z in degrees. */
  datatype Pose = Pose(x: real, y: real, z: real)

  /**
   * A search node. `gObs`/`hObs` are the obstacle-cost pair that only the
   * distance-transform variant reads; `seedId` names the seed that produced
   * this node from its parent, -1 standing for "none".
   */
  datatype State = State(pose: Pose, gDist: real, hDist: real, seedId: int, gObs: real, hObs: real)

  /** One sample point of a seed's swept footprint, relative to its origin. */
  datatype SeedPoint = SeedPoint(x: real, y: real)

  /**
   * A motion primitive: relative destination, traversal cost, wheel-speed
   * ratio `k`, wheel speeds `vl`/`vr` and the footprint samples.
   */
  datatype Seed = Seed(dest: Pose, cost: real, k: real, vl: real, vr: real, points: seq<SeedPoint>)

  /**
   * The occupancy grid `local_map`, indexed `[x][y]`; 0 is free. The grid is
   * square and its side is MAP_MAX.
   */
  type Grid = seq<seq<int>>

  predicate IsSquare(g: Grid) {
    forall a | 0 <= a < |g| :: |g[a]| == |g|
  }

  /** The cell value written for an obstacle. */
  const Occupied: int := 255

  datatype Vector3 = Vector3(x: real, y: real, z: real)

  /** A velocity command: linear and angular velocity vectors. */
  datatype Twist = Twist(linear: Vector3, angular: Vector3)

  /** A default-constructed command: every component zero. */
  const ZeroTwist: Twist := Twist(Vector3(0.0, 0.0, 0.0), Vector3(0.0, 0.0, 0.0))
}

=== FILE: wrappers.dfy ===
/** Failure-compatible result types used by the planner model. */
module Wrappers {

  /** An optional value: `None` stands for "no entry" or "no command". */
  datatype Option<+T> = None | Some(value: T)

  /** Either a value or an error; usable with `:-`. */
  datatype Result<+R, +E> = Success(value: R) | Failure(error: E) {

    predicate IsFailure() {
      Failure?
    }

    function PropagateFailure<U>(): Result<U, E>
      requires Failure?
    {
      Failure(error)
    }

    function Extract(): R
      requires Success?
    {
      value
    }
  }
}
